=== FILE: README.md ===
# kut — cutting a kind cluster's context out of a kubeconfig

`kut` reads a kubeconfig and keeps a single context, together with the cluster and the user stored under that context's name. It then points the cluster's API server at the kind control-plane container's address on the Docker network `kind`, on port 6443. The command prints the result.

This project models that transformation in Dafny and proves what it does.

- `GoStrings` (`go_strings.dfy`) holds the functions of Go's `strings` package that the command calls: `TrimPrefix` and `ReplaceAll`. `ReplaceAll` is modelled for a one-character target, which is the only form the command uses. `strings.Contains(path, "~")` is written as sequence membership, `'~' in path`. `HasPrefix` and `HasSuffix` are helpers for the contracts.
- `KubeconfigPath` (`kubeconfig_path.dfy`) covers path resolution. The `--kubeconfig` flag comes first, then the `KUBECONFIG` environment variable, then `~/.kube/config`. Every `~` in the chosen path is then replaced by the home directory.
- `Naming` (`naming.dfy`) covers the control-plane container name derived from the context name (`kind-<c>` becomes `<c>-control-plane`). It also defines the server URL `https://<ip>:6443` and its inverse, `HostOf`.
- `Kut` (`kut.dfy`) holds the kubeconfig itself:
  - a `Config` class whose three map fields and current-context field are updated in place by `SelectContext` and `UseDockerContainerIP`;
  - the functions those methods are proved against: `Selected`, `Rewritten` and `Cut`;
  - `RootCmdRunE`, the command body, proved against `Run`.

A kubeconfig's maps hold pointers in Go, and a pointer may be nil. So every map value here is an `Option`. `Get` reproduces Go's `m[k]`: it gives nil both for a missing key and for a stored nil.

The source does not check three things on `main.go:127`:
- that the container list is non-empty;
- that the first container has a `kind` network;
- that a cluster is stored under the context's name.

If any of these fails, the source panics. The model reports each case as an error instead: `NoControlPlaneContainer`, `NoKindNetwork` or `NilCluster`.

Three behaviours of the code are kept as they are:
- Clusters and users are pruned by the context's own name, not by the names the context references (`main.go:111-113`). `CutIgnoresReferencedCluster` shows what this does when the names differ. `SelectedIsReferencedUnderKindNaming` shows that pruning by name keeps exactly the referenced entries when context, cluster and user share one name, which is kind's convention.
- The `ContainerList` error is discarded (`main.go:119`), so the model only sees the list the query returns.
- Any context name is accepted, including the empty one.

## Model

| member | source | states |
|---|---|---|
| GoStrings.TrimPrefix | main.go:123 | removes exactly one leading copy of the prefix when there is one; otherwise the string is unchanged; the result is always a suffix of the input |
| GoStrings.ReplaceAll | main.go:98 | a string with no `~` comes back unchanged; if the replacement has no `~`, the result has none |
| GoStrings.ReplaceAllOne | main.go:98 | a single `~` becomes the home directory; with ReplaceAllAppend this determines the result on every string |
| GoStrings.ReplaceAllAppend | main.go:98 | replacing distributes over concatenation, so every occurrence is replaced where it stands, not only the first |
| GoStrings.ReplaceAllLength | main.go:98 | the result grows by `|replacement| - 1` for each occurrence of the target |
| GoStrings.ReplaceAllByItself | main.go:98 | replacing the target by itself is the identity |
| KubeconfigPath.ResolvePath | main.go:85-101 | fails exactly when the chosen path contains `~` and there is no home directory; a path without `~` is returned as it is and the home directory is never needed; otherwise every `~` is expanded, and no `~` is left unless the home directory has one |
| KubeconfigPath.ChosenPath | main.go:86-92 | the chosen path is never empty and is one of flag, environment or `~/.kube/config`; a non-empty flag wins; with an empty flag a non-empty environment value wins |
| KubeconfigPath.ChosenPathIsFirstNonEmpty | main.go:86-92 | the path chosen is the first non-empty one of flag, environment and `~/.kube/config`, as a first-match-wins list defines it |
| KubeconfigPath.DefaultResolvesUnderHome | main.go:20 | with neither flag nor environment set, the path is `<home>/.kube/config` |
| KubeconfigPath.ExpandsEveryMarker | main.go:93-99 | a path with two `~` gets the home directory in both places |
| Naming.ControlPlaneName | main.go:123 | the filter always ends in `-control-plane`; with the `kind-` prefix it is the rest of the name plus the suffix; without the prefix it is the whole name plus the suffix |
| Naming.ControlPlaneNameStripsOnce | main.go:123 | `kind-<c>` gives `<c>-control-plane` for every `<c>`, even one that starts with `kind-` itself |
| Naming.ControlPlaneNameOfKindContext | main.go:123 | `kind-kind2` gives `kind2-control-plane` |
| Naming.ControlPlaneNameOfDoublePrefix | main.go:123 | `kind-kind-x` gives `kind-x-control-plane` |
| Naming.ControlPlaneNameWithoutPrefix | main.go:123 | `other` gives `other-control-plane` |
| Naming.ControlPlaneNameCollides | main.go:123 | the distinct contexts `kind-<c>` and `<c>` select the same container |
| Naming.ServerUrl | main.go:127 | the URL starts with `https://`, ends with `:6443`, and its length is the address's length plus those of scheme and port |
| Naming.ServerUrlRoundTrip | main.go:127 | the address written into the URL is read back from it unchanged |
| Naming.HostOfRoundTrip | main.go:127 | every URL of the shape `https://<host>:6443` is the ServerUrl of its host |
| Naming.ServerUrlInjective | main.go:127 | different addresses give different URLs |
| Kut.Get | main.go:111-113 | indexing a map with a missing key gives nil; with a present key it gives the stored value, which may be nil |
| Kut.ContainsContext | main.go:103-107 | the guard passes exactly when `name` is a key of contexts, so an unknown name fails it and a name stored with a nil context passes it; a name that fails it can only be looked up as nil |
| Kut.KindAddress | main.go:127 | an address exists exactly when the list is non-empty and its first container is on the `kind` network, and it is that container's `kind` address |
| Kut.Selected | main.go:109-115 | all three maps have exactly the key set `{name}`; current context is `name`; each value is what the old map held under `name`, or nil; clusters and users are looked up by the context's name; preferences are kept |
| Kut.Rewritten | main.go:117-128 | succeeds exactly when the first container has a `kind` address and a cluster is stored under `name`, and names the error otherwise; the cluster's server becomes `https://<ip>:6443` and its trust material is kept; every other cluster, the contexts, the users, the current context and the preferences are unchanged |
| Kut.Cut | main.go:70-74 | fails with NoSuchContext exactly when `name` is not a key of contexts; on success the contexts map is the old entry alone, the users map the entry under `name` alone, the clusters map the cluster stored under `name` alone with its server replaced by `https://<kind address>:6443`, current context is `name`, and preferences are kept |
| Kut.Run | main.go:59-83 | succeeds exactly when the path resolves, the file loads, the context is a key of contexts, a cluster is stored under its name and the first container found has a `kind` address; a path that cannot be resolved is reported before loading; a file that cannot be loaded is reported as LoadFailed; NoSuchContext is reported only after a successful load of a document without that context; a document to write holds the loaded context and the user under `name`, the cluster stored under `name` with its server replaced by `https://<kind address>:6443`, `name` as current context and the loaded preferences |
| Kut.SelectIdempotent | main.go:109-115 | pruning twice to the same name equals pruning once |
| Kut.RewriteIdempotent | main.go:127 | rewriting twice with the same containers equals rewriting once |
| Kut.CutIdempotent | main.go:70-74 | cutting an already-cut kubeconfig to the same context leaves it unchanged |
| Kut.NilContextPassesGuard | main.go:103-107 | the guard tests only for the key: a context stored as nil passes, and the pruned map keeps it as nil |
| Kut.UnknownContextPrunesToNil | main.go:70-73 | without the guard, pruning to an unknown name would leave a nil context under that name |
| Kut.CutSucceeds | main.go:70-74 | a known context whose cluster is stored under its name, with a container on `kind`, is cut to the pruned document whose only cluster has server `https://<ip>:6443` |
| Kut.SelectedIsReferencedUnderKindNaming | main.go:111-113 | when context, cluster and user share one name, pruning keeps exactly the entries the context refers to |
| Kut.CutIgnoresReferencedCluster | main.go:112 | a context that refers to a cluster under another name, with nothing stored under its own name, makes the cut fail with NilCluster even though the referenced cluster exists |
| Kut.TwoKindClustersScenario | main.go:70-74 | with clusters `kind2` and `kind3`, cutting `kind-kind2` while `kind2-control-plane` runs at 172.18.0.2 gives a one-context kubeconfig served at `https://172.18.0.2:6443`, with trust material, user and preferences kept |
| Kut.RunStopsAtPath | main.go:60-63 | a path that cannot be resolved is reported before anything is loaded |
| Kut.RunRefusesUnknownContext | main.go:70-72 | an unknown context is reported whatever the container query returns, so no pruning or rewrite takes place |
| Kut.RunReportsContainerErrors | main.go:117-128 | for a loaded kubeconfig that knows the context, an empty container list gives NoControlPlaneContainer, a first container without a `kind` network gives NoKindNetwork, and a container address with no cluster under the name gives NilCluster |
| Kut.Config.SelectContext | main.go:109-115 | the object's new contents are `Selected` of its old contents |
| Kut.Config.UseDockerContainerIP | main.go:117-128 | queries with the derived container name; on success the new contents are `Rewritten` of the old; on error the object is unchanged and the error is returned |
| Kut.RootCmdRunE | main.go:59-83 | resolving the path, loading, guarding, pruning and rewriting a fresh in-memory kubeconfig returns exactly `Run`: the first error met, or the document to be written |

## Left out

- Command-line parsing, the required `--context` flag and the binding of flags to configuration (`main.go:22-44`, `main.go:53-57`) are not modelled. The flag value, the `KUBECONFIG` value and the context name are parameters.
- `os.Getenv` and `os.UserHomeDir` are parameters. The home directory is `None` when it cannot be determined.
- Creating the Docker client (`main.go:46-50`) is not modelled. The `ContainerList` call is a parameter `listRunning` that maps the derived name filter to the list the daemon returns. Docker's own filter matching is not modelled, and neither is the running-only default. A failed query is only seen as the list it yields, because the source discards the error.
- Reading and parsing the YAML file is the parameter `load`; `None` means the file could not be loaded. Serialising the result and printing it (`main.go:76-80`) are not modelled. `Run` returns the document that would be serialised, so a serialisation error is not modelled either.
- The text of error messages and their wrapping (`fmt.Errorf`) are not modelled. Errors are the cases of `CutError`.
- Kut.Rewritten: the source panics on an empty container list, on a missing `kind` network and on a nil cluster. The model returns an error in each case. It checks the container list, then the network, then the cluster, and does not model which panic Go would raise first.
- Kut.Config.UseDockerContainerIP: the source reaches the cluster through a pointer held in the map and assigns its `Server` field. The model replaces the map value instead, so aliasing between two map entries that share one cluster object is not modelled.
- GoStrings.ReplaceAll: only a one-character target is modelled, which is the form the command uses.
- Cluster, AuthInfo, Context and the document's other settings keep only a representative set of fields. All of them are carried through without being read. Any further field of the client library's types would be carried through the same way.
- A container whose network settings are nil is not modelled. Each container is a name and a map from network name to address.

=== FILE: go_strings.dfy ===
/**
 * The functions of Go's `strings` package that the command calls, on Dafny strings:
 * `TrimPrefix` and `ReplaceAll`, the latter for a one-character target, the only form
 * the command uses. `strings.Contains(path, "~")` is sequence membership, `'~' in path`.
 * `HasPrefix` and `HasSuffix` are helpers for the contracts.
 */
module GoStrings {

  /** `strings.HasPrefix(s, prefix)`. */
  predicate HasPrefix(s: string, prefix: string)
  {
    |prefix| <= |s| && s[..|prefix|] == prefix
  }

  /** `strings.HasSuffix(s, suffix)`. */
  predicate HasSuffix(s: string, suffix: string)
  {
    |suffix| <= |s| && s[|s| - |suffix|..] == suffix
  }

  /** `strings.TrimPrefix(s, prefix)`: drops one leading copy of `prefix`, if there is one. */
  function TrimPrefix(s: string, prefix: string): (r: string)
    ensures HasPrefix(s, prefix) ==> prefix + r == s
    ensures !HasPrefix(s, prefix) ==> r == s
    ensures HasSuffix(s, r)
  {
    if HasPrefix(s, prefix) then s[|prefix|..] else s
  }

  /** Number of occurrences of `c` in `s`. */
  function Count(s: string, c: char): nat
  {
    if s == [] then 0 else (if s[0] == c then 1 else 0) + Count(s[1..], c)
  }

  /**
   * `strings.ReplaceAll(s, [target], replacement)`: every occurrence of `target` in `s`
   * is replaced by `replacement`, left to right; the inserted text is not scanned again.
   */
  function ReplaceAll(s: string, target: char, replacement: string): (r: string)
    ensures target !in s ==> r == s
    ensures target !in replacement ==> target !in r
  {
    if s == [] then []
    else (if s[0] == target then replacement else [s[0]]) + ReplaceAll(s[1..], target, replacement)
  }

  /** A single occurrence of the target becomes the replacement. */
  lemma ReplaceAllOne(target: char, replacement: string)
    ensures ReplaceAll([target], target, replacement) == replacement
  {
    assert [target][1..] == [];
  }

  /** Replacing distributes over concatenation: each occurrence is replaced where it stands. */
  lemma {:induction false} ReplaceAllAppend(a: string, b: string, target: char, replacement: string)
    ensures ReplaceAll(a + b, target, replacement)
         == ReplaceAll(a, target, replacement) + ReplaceAll(b, target, replacement)
  {
    if a == [] {
      assert a + b == b;
    } else {
      assert (a + b)[0] == a[0];
      assert (a + b)[1..] == a[1..] + b;
      ReplaceAllAppend(a[1..], b, target, replacement);
    }
  }

  /** Each occurrence of the target grows the string by `|replacement| - 1` characters. */
  lemma {:induction false} ReplaceAllLength(s: string, target: char, replacement: string)
    ensures |ReplaceAll(s, target, replacement)| == |s| + Count(s, target) * (|replacement| - 1)
  {
    if s != [] {
      ReplaceAllLength(s[1..], target, replacement);
      var head := if s[0] == target then replacement else [s[0]];
      assert ReplaceAll(s, target, replacement) == head + ReplaceAll(s[1..], target, replacement);
      var n := Count(s[1..], target);
      if s[0] == target {
        assert Count(s, target) == n + 1;
        MulSucc(n, |replacement| - 1);
      } else {
        assert Count(s, target) == n;
      }
    }
  }

  lemma MulSucc(n: int, g: int)
    ensures (n + 1) * g == n * g + g
  {
  }

  /** Replacing the target by itself changes nothing. */
  lemma {:induction false} ReplaceAllByItself(s: string, target: char)
    ensures ReplaceAll(s, target, [target]) == s
  {
    if s != [] {
      ReplaceAllByItself(s[1..], target);
      assert s == [s[0]] + s[1..];
    }
  }
}

=== FILE: kubeconfig_path.dfy ===
/**
 * Where the input kubeconfig is read from: the `--kubeconfig` flag, else the
 * `KUBECONFIG` environment variable, else the default path under the home directory,
 * with every `~` of the chosen path expanded to the home directory.
 * The environment and the home-directory lookup are parameters: `env` is what
 * `KUBECONFIG` holds ("" when unset) and `home` is the user's home directory,
 * or None when it cannot be determined.
 */
module KubeconfigPath {
  import opened Wrappers
  import opened GoStrings

  /** The path used when neither the flag nor the environment names one. */
  const DefaultKubeconfig: string := "~/.kube/config"

  /** The character that stands for the home directory. */
  const HomeMarker: char := '~'

  datatype PathError = HomeDirUnavailable

  /** The path before expansion: the flag wins over the environment, which wins over the default. */
  function ChosenPath(flag: string, env: string): (path: string)
    ensures path != ""
    ensures path == flag || path == env || path == DefaultKubeconfig
    ensures flag != "" ==> path == flag
    ensures flag == "" && env != "" ==> path == env
  {
    if flag != "" then flag
    else if env != "" then env
    else DefaultKubeconfig
  }

  /** Reference definition of the precedence: the first non-empty candidate, in order. */
  function FirstNonEmpty(candidates: seq<string>): Option<string>
  {
    if candidates == [] then None
    else if candidates[0] != "" then Some(candidates[0])
    else FirstNonEmpty(candidates[1..])
  }

  /** The resolved path of the kubeconfig to load, or why there is none. */
  function ResolvePath(flag: string, env: string, home: Option<string>): (r: Result<string, PathError>)
    // the precedence chain always picks some path; only the home lookup can fail
    ensures r.Failure? <==> HomeMarker in ChosenPath(flag, env) && home.None?
    // a path without `~` is used as it stands and never needs the home directory
    ensures HomeMarker !in ChosenPath(flag, env) ==> r == Success(ChosenPath(flag, env))
    // with a home directory, every `~` is expanded
    ensures home.Some? ==> r == Success(ReplaceAll(ChosenPath(flag, env), HomeMarker, home.value))
    // ... and none is left unless the home directory itself has one
    ensures r.Success? && (home.None? || HomeMarker !in home.value) ==> HomeMarker !in r.value
  {
    var path := ChosenPath(flag, env);
    if HomeMarker in path then
      match home
      case None => Failure(HomeDirUnavailable)
      case Some(h) => Success(ReplaceAll(path, HomeMarker, h))
    else
      Success(path)
  }

  /** The chosen path is the first non-empty one of flag, environment and default. */
  lemma ChosenPathIsFirstNonEmpty(flag: string, env: string)
    ensures FirstNonEmpty([flag, env, DefaultKubeconfig]) == Some(ChosenPath(flag, env))
  {
    var candidates := [flag, env, DefaultKubeconfig];
    assert DefaultKubeconfig[0] == HomeMarker;
    if flag == "" {
      assert candidates[1..] == [env, DefaultKubeconfig];
      if env == "" {
        assert candidates[1..][1..] == [DefaultKubeconfig];
        assert FirstNonEmpty(candidates[1..][1..]) == Some(DefaultKubeconfig);
      }
    }
  }

  /** With neither flag nor environment, the default resolves to `<home>/.kube/config`. */
  lemma DefaultResolvesUnderHome(home: string)
    ensures ResolvePath("", "", Some(home)) == Success(home + "/.kube/config")
  {
    var rest := "/.kube/config";
    var marker := [HomeMarker];
    assert DefaultKubeconfig == marker + rest;
    assert ChosenPath("", "") == DefaultKubeconfig;
    assert HomeMarker in DefaultKubeconfig by { assert DefaultKubeconfig[0] == HomeMarker; }
    assert HomeMarker !in rest by {
      forall i | 0 <= i < |rest| ensures rest[i] != HomeMarker { }
    }
    assert ReplaceAll(marker, HomeMarker, home) == home by {
      assert marker[1..] == [];
    }
    ReplaceAllAppend(marker, rest, HomeMarker, home);
  }

  /** Every `~` is expanded, not only a leading one. */
  lemma ExpandsEveryMarker(a: string, b: string, env: string, home: string)
    requires HomeMarker !in a && HomeMarker !in b
    ensures ResolvePath([HomeMarker] + a + [HomeMarker] + b, env, Some(home))
         == Success(home + a + home + b)
  {
    var marker := [HomeMarker];
    var path := marker + a + marker + b;
    assert path == (marker + a) + (marker + b);
    assert path[0] == HomeMarker && ChosenPath(path, env) == path;
    assert ReplaceAll(marker, HomeMarker, home) == home by {
      assert marker[1..] == [];
    }
    ReplaceAllAppend(marker + a, marker + b, HomeMarker, home);
    ReplaceAllAppend(marker, a, HomeMarker, home);
    ReplaceAllAppend(marker, b, HomeMarker, home);
    assert ReplaceAll(path, HomeMarker, home) == home + a + (home + b);
    assert home + a + (home + b) == home + a + home + b;
  }
}

=== FILE: kut.dfy ===
/**
 * The cut: keep one context of a kubeconfig and point its cluster at the kind
 * control-plane container's address on the `kind` network.
 *
 * A kubeconfig holds three maps from names to pointers (contexts, clusters, users),
 * and a pointer may be nil; a map value here is an Option. Go's `m[k]` yields nil both
 * for a missing key and for a stored nil, which Get reproduces.
 */
module Kut {
  import opened Wrappers
  import opened Naming
  import KubeconfigPath

  /** Trust material of a cluster; carried through, never read. */
  datatype TrustMaterial = TrustMaterial(
    certificateAuthority: string,
    certificateAuthorityData: seq<bv8>,
    tlsServerName: string,
    insecureSkipTlsVerify: bool,
    proxyUrl: string)

  datatype Cluster = Cluster(server: string, trust: TrustMaterial)

  /** Credentials of a user; carried through, never read. */
  datatype AuthInfo = AuthInfo(
    clientCertificateData: seq<bv8>,
    clientKeyData: seq<bv8>,
    token: string,
    username: string)

  /** A context names the cluster and the user it pairs. */
  datatype Context = Context(cluster: string, authInfo: string, namespace: string)

  /** Document-level settings the cut carries through unchanged. */
  datatype Preferences = Preferences(colors: bool, extensions: seq<string>)

  /** One running container as the Docker query reports it: its name and its address per network. */
  datatype Container = Container(name: string, networks: map<string, string>)

  datatype CutError =
    | PathFailed(cause: KubeconfigPath.PathError)  // the kubeconfig path could not be resolved
    | LoadFailed                                   // the file could not be read or parsed
    | NoSuchContext                                // the requested context is not a key of contexts
    | NoControlPlaneContainer                      // the query returned no container
    | NoKindNetwork                                // the first container is not on the `kind` network
    | NilCluster                                   // no cluster is stored under the context's name

  /** The contents of a kubeconfig at one moment. */
  datatype ConfigValue = ConfigValue(
    contexts: map<string, Option<Context>>,
    clusters: map<string, Option<Cluster>>,
    authInfos: map<string, Option<AuthInfo>>,
    currentContext: string,
    preferences: Preferences)

  /** Go's index expression on a map of pointers. */
  function Get<V>(m: map<string, Option<V>>, key: string): (r: Option<V>)
    ensures key !in m ==> r == None
    ensures key in m ==> r == m[key]
  {
    if key in m then m[key] else None
  }

  /** The membership test guarding the cut: is `name` a key of the contexts map? */
  function ContainsContext(v: ConfigValue, name: string): (found: bool)
    // Go's comma-ok index: the key is present, whether or not its value is nil
    ensures found <==> name in v.contexts
    // so a context that is not found can only be looked up as nil
    ensures !found ==> Get(v.contexts, name) == None
  {
    name in v.contexts
  }

  /** The kubeconfig after pruning to `name`; every map is looked up by the context's own name. */
  function Selected(v: ConfigValue, name: string): (r: ConfigValue)
    ensures r.contexts.Keys == {name} && r.clusters.Keys == {name} && r.authInfos.Keys == {name}
    ensures r.currentContext == name
    ensures r.contexts[name] == Get(v.contexts, name)
    ensures r.clusters[name] == Get(v.clusters, name)
    ensures r.authInfos[name] == Get(v.authInfos, name)
    ensures r.preferences == v.preferences
  {
    ConfigValue(
      map[name := Get(v.contexts, name)],
      map[name := Get(v.clusters, name)],
      map[name := Get(v.authInfos, name)],
      name,
      v.preferences)
  }

  /** The address of the first container on the `kind` network. */
  function KindAddress(containers: seq<Container>): (ip: Option<string>)
    ensures ip.Some? <==> |containers| > 0 && KindNetwork in containers[0].networks
    ensures ip.Some? ==> ip.value == containers[0].networks[KindNetwork]
  {
    if |containers| > 0 && KindNetwork in containers[0].networks
    then Some(containers[0].networks[KindNetwork])
    else None
  }

  /**
   * The kubeconfig after pointing the cluster stored under `name` at the first container.
   * The three cases the command does not check become errors.
   */
  function Rewritten(v: ConfigValue, name: string, containers: seq<Container>): (r: Result<ConfigValue, CutError>)
    ensures |containers| == 0 ==> r == Failure(NoControlPlaneContainer)
    ensures |containers| > 0 && KindNetwork !in containers[0].networks ==> r == Failure(NoKindNetwork)
    ensures KindAddress(containers).Some? && Get(v.clusters, name).None? ==> r == Failure(NilCluster)
    ensures r.Success? <==> KindAddress(containers).Some? && Get(v.clusters, name).Some?
    // the cluster under `name` gets exactly the new server and keeps its trust material
    ensures r.Success? ==>
      && name in r.value.clusters && r.value.clusters[name].Some?
      && r.value.clusters[name].value.server == ServerUrl(KindAddress(containers).value)
      && r.value.clusters[name].value.trust == v.clusters[name].value.trust
    // nothing else changes
    ensures r.Success? ==>
      && r.value.clusters.Keys == v.clusters.Keys
      && (forall k :: k in v.clusters && k != name ==> r.value.clusters[k] == v.clusters[k])
      && r.value.contexts == v.contexts
      && r.value.authInfos == v.authInfos
      && r.value.currentContext == v.currentContext
      && r.value.preferences == v.preferences
  {
    if |containers| == 0 then Failure(NoControlPlaneContainer)
    else if KindNetwork !in containers[0].networks then Failure(NoKindNetwork)
    else match Get(v.clusters, name)
      case None => Failure(NilCluster)
      case Some(cluster) =>
        var server := ServerUrl(containers[0].networks[KindNetwork]);
        Success(v.(clusters := v.clusters[name := Some(cluster.(server := server))]))
  }

  /**
   * The cut of a loaded kubeconfig: check the context, prune, then rewrite with what the
   * Docker query returns for the derived control-plane name.
   */
  function Cut(v: ConfigValue, name: string, listRunning: string -> seq<Container>): (r: Result<ConfigValue, CutError>)
    ensures r == Failure(NoSuchContext) <==> !ContainsContext(v, name)
    ensures r.Success? ==>
      && r.value.contexts == map[name := v.contexts[name]]
      && r.value.authInfos == map[name := Get(v.authInfos, name)]
      && r.value.clusters.Keys == {name}
      && r.value.currentContext == name
    // the one cluster is the one stored under `name`, with only its server replaced
    ensures r.Success? ==>
      && name in v.clusters && v.clusters[name].Some?
      && KindAddress(listRunning(ControlPlaneName(name))).Some?
      && r.value.clusters
         == map[name := Some(v.clusters[name].value.(server := ServerUrl(KindAddress(listRunning(ControlPlaneName(name))).value)))]
      && r.value.preferences == v.preferences
  {
    if !ContainsContext(v, name) then Failure(NoSuchContext)
    else Rewritten(Selected(v, name), name, listRunning(ControlPlaneName(name)))
  }

  /** The whole command: resolve the path, load, cut; the value returned is what gets written out. */
  function Run(flag: string, env: string, home: Option<string>,
               load: string -> Option<ConfigValue>,
               name: string, listRunning: string -> seq<Container>): (r: Result<ConfigValue, CutError>)
    // the path is resolved before anything is loaded
    ensures KubeconfigPath.ResolvePath(flag, env, home).Failure? ==> r.Failure? && r.error.PathFailed?
    // an unknown context is reported only after a successful load
    ensures r == Failure(NoSuchContext) ==>
      && KubeconfigPath.ResolvePath(flag, env, home).Success?
      && load(KubeconfigPath.ResolvePath(flag, env, home).value).Some?
      && !ContainsContext(load(KubeconfigPath.ResolvePath(flag, env, home).value).value, name)
    // a file that cannot be loaded is reported after the path is resolved
    ensures (KubeconfigPath.ResolvePath(flag, env, home).Success?
             && load(KubeconfigPath.ResolvePath(flag, env, home).value).None?)
         ==> r == Failure(LoadFailed)
    // a document to write holds the loaded context, user and cluster under `name`, `name` current,
    // the cluster's server pointed at the control-plane container
    ensures r.Success? ==>
      && KubeconfigPath.ResolvePath(flag, env, home).Success?
      && load(KubeconfigPath.ResolvePath(flag, env, home).value).Some?
      && var v := load(KubeconfigPath.ResolvePath(flag, env, home).value).value;
         var ip := KindAddress(listRunning(ControlPlaneName(name)));
         && name in v.contexts && name in v.clusters && v.clusters[name].Some? && ip.Some?
         && r.value.contexts == map[name := v.contexts[name]]
         && r.value.authInfos == map[name := Get(v.authInfos, name)]
         && r.value.clusters == map[name := Some(v.clusters[name].value.(server := ServerUrl(ip.value)))]
         && r.value.currentContext == name
         && r.value.preferences == v.preferences
    // the command succeeds exactly when the file loads, the context is known, a cluster is
    // stored under its name and the first container found has a `kind` address
    ensures r.Success? <==>
      && KubeconfigPath.ResolvePath(flag, env, home).Success?
      && load(KubeconfigPath.ResolvePath(flag, env, home).value).Some?
      && var v := load(KubeconfigPath.ResolvePath(flag, env, home).value).value;
         && name in v.contexts
         && Get(v.clusters, name).Some?
         && KindAddress(listRunning(ControlPlaneName(name))).Some?
  {
    match KubeconfigPath.ResolvePath(flag, env, home)
    case Failure(e) => Failure(PathFailed(e))
    case Success(path) =>
      match load(path)
      case None => Failure(LoadFailed)
      case Some(v) => Cut(v, name, listRunning)
  }

  /** Pruning twice to the same name is pruning once. */
  lemma SelectIdempotent(v: ConfigValue, name: string)
    ensures Selected(Selected(v, name), name) == Selected(v, name)
  {
  }

  /** Rewriting twice with the same containers gives what rewriting once gives. */
  lemma RewriteIdempotent(v: ConfigValue, name: string, containers: seq<Container>)
    requires Rewritten(v, name, containers).Success?
    ensures Rewritten(Rewritten(v, name, containers).value, name, containers) == Rewritten(v, name, containers)
  {
    var w := Rewritten(v, name, containers).value;
    assert w.clusters[name := w.clusters[name]] == w.clusters;
  }

  /** A kubeconfig that has been cut is left as it is by cutting it again to the same context. */
  lemma {:induction false} CutIdempotent(v: ConfigValue, name: string, listRunning: string -> seq<Container>)
    requires Cut(v, name, listRunning).Success?
    ensures Cut(Cut(v, name, listRunning).value, name, listRunning) == Cut(v, name, listRunning)
  {
    var containers := listRunning(ControlPlaneName(name));
    var s := Selected(v, name);
    var w := Cut(v, name, listRunning).value;
    assert Rewritten(s, name, containers) == Success(w);
    assert ContainsContext(w, name);
    assert Selected(w, name) == w by {
      assert w.contexts == s.contexts;
      assert w.authInfos == s.authInfos;
      assert Get(w.clusters, name) == w.clusters[name];
      assert map[name := w.clusters[name]] == w.clusters;
    }
    RewriteIdempotent(s, name, containers);
  }

  /** The guard tests for the key only: a context stored as nil passes it and is kept as nil. */
  lemma NilContextPassesGuard(v: ConfigValue, name: string)
    requires name in v.contexts && v.contexts[name] == None
    ensures ContainsContext(v, name)
    ensures Selected(v, name).contexts == map[name := None]
  {
  }

  /** Without the guard, pruning to an unknown name would keep a nil context under it. */
  lemma UnknownContextPrunesToNil(v: ConfigValue, name: string)
    requires !ContainsContext(v, name)
    ensures Selected(v, name).contexts == map[name := None]
  {
  }

  /** The entries that the context `name` refers to: its cluster and user by their own names. */
  function Referenced(v: ConfigValue, name: string): Option<ConfigValue>
  {
    match Get(v.contexts, name)
    case None => None
    case Some(ctx) =>
      Some(ConfigValue(
        map[name := Some(ctx)],
        map k | k in v.clusters && k == ctx.cluster :: v.clusters[k],
        map k | k in v.authInfos && k == ctx.authInfo :: v.authInfos[k],
        name,
        v.preferences))
  }

  /**
   * Pruning by the context's name keeps exactly the entries the context refers to when the
   * kubeconfig follows kind's convention of naming context, cluster and user alike.
   */
  lemma SelectedIsReferencedUnderKindNaming(v: ConfigValue, name: string, ctx: Context)
    requires Get(v.contexts, name) == Some(ctx)
    requires ctx.cluster == name && name in v.clusters
    requires ctx.authInfo == name && name in v.authInfos
    ensures Referenced(v, name) == Some(Selected(v, name))
  {
    var r := Referenced(v, name).value;
    var s := Selected(v, name);
    assert r.clusters == s.clusters;
    assert r.authInfos == s.authInfos;
  }

  /**
   * The clusters map is pruned by the context's name, not by the cluster the context
   * names: when the two differ and nothing is stored under the context's name, the
   * cut fails even though the referenced cluster exists.
   */
  lemma CutIgnoresReferencedCluster(v: ConfigValue, name: string, listRunning: string -> seq<Container>, ctx: Context)
    requires Get(v.contexts, name) == Some(ctx)
    requires ctx.cluster != name && ctx.cluster in v.clusters
    requires name !in v.clusters
    requires KindAddress(listRunning(ControlPlaneName(name))).Some?
    ensures Cut(v, name, listRunning) == Failure(NilCluster)
  {
  }

  /**
   * Two kind clusters `kind2` and `kind3`; cutting `kind-kind2` while the container
   * `kind2-control-plane` runs with `kind` address 172.18.0.2 leaves only `kind-kind2`,
   * served at https://172.18.0.2:6443.
   */
  lemma TwoKindClustersScenario(t2: TrustMaterial, t3: TrustMaterial, a2: AuthInfo, a3: AuthInfo,
                                prefs: Preferences, listRunning: string -> seq<Container>)
    requires listRunning("kind2-control-plane") == [Container("kind2-control-plane", map["kind" := "172.18.0.2"])]
    ensures var ctx2 := Context("kind-kind2", "kind-kind2", "");
      var ctx3 := Context("kind-kind3", "kind-kind3", "");
      var v := ConfigValue(
        map["kind-kind2" := Some(ctx2), "kind-kind3" := Some(ctx3)],
        map["kind-kind2" := Some(Cluster("https://127.0.0.1:40001", t2)),
            "kind-kind3" := Some(Cluster("https://127.0.0.1:40002", t3))],
        map["kind-kind2" := Some(a2), "kind-kind3" := Some(a3)],
        "kind-kind3",
        prefs);
      Cut(v, "kind-kind2", listRunning) == Success(ConfigValue(
        map["kind-kind2" := Some(ctx2)],
        map["kind-kind2" := Some(Cluster("https://172.18.0.2:6443", t2))],
        map["kind-kind2" := Some(a2)],
        "kind-kind2",
        prefs))
  {
    var name := "kind-kind2";
    var ctx2 := Context(name, name, "");
    var ctx3 := Context("kind-kind3", "kind-kind3", "");
    var c2 := Cluster("https://127.0.0.1:40001", t2);
    var v := ConfigValue(
      map[name := Some(ctx2), "kind-kind3" := Some(ctx3)],
      map[name := Some(c2), "kind-kind3" := Some(Cluster("https://127.0.0.1:40002", t3))],
      map[name := Some(a2), "kind-kind3" := Some(a3)],
      "kind-kind3",
      prefs);
    var ip := "172.18.0.2";
    assert KindAddress(listRunning(ControlPlaneName(name))) == Some(ip) by {
      ControlPlaneNameOfKindContext();
    }
    assert Selected(v, name) == ConfigValue(map[name := Some(ctx2)], map[name := Some(c2)], map[name := Some(a2)], name, prefs);
    assert ServerUrl(ip) == "https://172.18.0.2:6443";
    CutSucceeds(v, name, listRunning, ip, c2);
  }

  /** The cut of a known context whose cluster is stored and whose container is on `kind`. */
  lemma CutSucceeds(v: ConfigValue, name: string, listRunning: string -> seq<Container>, ip: string, cluster: Cluster)
    requires ContainsContext(v, name)
    requires Get(v.clusters, name) == Some(cluster)
    requires KindAddress(listRunning(ControlPlaneName(name))) == Some(ip)
    ensures Cut(v, name, listRunning)
         == Success(Selected(v, name).(clusters := map[name := Some(cluster.(server := ServerUrl(ip)))]))
  {
    var s := Selected(v, name);
    assert s.clusters[name := Some(cluster.(server := ServerUrl(ip)))]
        == map[name := Some(cluster.(server := ServerUrl(ip)))];
  }

  /** A path that cannot be resolved stops the command before anything is loaded. */
  lemma RunStopsAtPath(flag: string, env: string, home: Option<string>,
                       load: string -> Option<ConfigValue>, name: string, listRunning: string -> seq<Container>)
    requires KubeconfigPath.ResolvePath(flag, env, home).Failure?
    ensures Run(flag, env, home, load, name, listRunning) == Failure(PathFailed(KubeconfigPath.HomeDirUnavailable))
  {
  }

  /** An unknown context is reported, whatever the Docker query would return. */
  lemma RunRefusesUnknownContext(flag: string, env: string, home: Option<string>,
                                 load: string -> Option<ConfigValue>, name: string, listRunning: string -> seq<Container>)
    requires KubeconfigPath.ResolvePath(flag, env, home).Success?
    requires var loaded := load(KubeconfigPath.ResolvePath(flag, env, home).value);
      loaded.Some? && name !in loaded.value.contexts
    ensures Run(flag, env, home, load, name, listRunning) == Failure(NoSuchContext)
  {
  }

  /**
   * For a loaded kubeconfig that knows the context, the container query decides the error:
   * no container, then no `kind` network on the first one, then no cluster under the name.
   */
  lemma RunReportsContainerErrors(flag: string, env: string, home: Option<string>,
                                  load: string -> Option<ConfigValue>, name: string,
                                  listRunning: string -> seq<Container>)
    requires KubeconfigPath.ResolvePath(flag, env, home).Success?
    requires var loaded := load(KubeconfigPath.ResolvePath(flag, env, home).value);
      loaded.Some? && name in loaded.value.contexts
    ensures var containers := listRunning(ControlPlaneName(name));
      var v := load(KubeconfigPath.ResolvePath(flag, env, home).value).value;
      var r := Run(flag, env, home, load, name, listRunning);
      && (containers == [] ==> r == Failure(NoControlPlaneContainer))
      && (containers != [] && KindNetwork !in containers[0].networks ==> r == Failure(NoKindNetwork))
      && (KindAddress(containers).Some? && Get(v.clusters, name).None? ==> r == Failure(NilCluster))
  {
    var v := load(KubeconfigPath.ResolvePath(flag, env, home).value).value;
    assert Get(Selected(v, name).clusters, name) == Get(v.clusters, name);
  }

  /** A kubeconfig held in memory and changed in place. */
  class Config {
    var contexts: map<string, Option<Context>>
    var clusters: map<string, Option<Cluster>>
    var authInfos: map<string, Option<AuthInfo>>
    var currentContext: string
    var preferences: Preferences

    /** The current contents. */
    function Value(): ConfigValue
      reads this
    {
      ConfigValue(contexts, clusters, authInfos, currentContext, preferences)
    }

    constructor (v: ConfigValue)
      ensures Value() == v
    {
      contexts := v.contexts;
      clusters := v.clusters;
      authInfos := v.authInfos;
      currentContext := v.currentContext;
      preferences := v.preferences;
    }

    /** Replaces each map by a one-entry map keyed by `name` and makes `name` current. */
    method SelectContext(name: string)
      modifies this
      ensures Value() == Selected(old(Value()), name)
    {
      contexts := map[name := Get(contexts, name)];
      clusters := map[name := Get(clusters, name)];
      authInfos := map[name := Get(authInfos, name)];
      currentContext := name;
    }

    /**
     * Queries the running containers named after the context and writes the first one's
     * `kind` address into the server of the cluster stored under `name`.
     */
    method UseDockerContainerIP(name: string, listRunning: string -> seq<Container>) returns (outcome: Outcome<CutError>)
      modifies this
      ensures var want := Rewritten(old(Value()), name, listRunning(ControlPlaneName(name)));
        && (want.Success? ==> outcome == Pass && Value() == want.value)
        && (want.Failure? ==> outcome == Fail(want.error) && Value() == old(Value()))
    {
      var containers := listRunning(ControlPlaneName(name));
      if |containers| == 0 {
        return Fail(NoControlPlaneContainer);
      }
      if KindNetwork !in containers[0].networks {
        return Fail(NoKindNetwork);
      }
      var cluster := Get(clusters, name);
      if cluster.None? {
        return Fail(NilCluster);
      }
      var server := ServerUrl(containers[0].networks[KindNetwork]);
      clusters := clusters[name := Some(cluster.value.(server := server))];
      outcome := Pass;
    }
  }

  /**
   * The command's body: resolve the path, load into a fresh Config, refuse an unknown
   * context before touching anything, prune, rewrite, and return what would be written.
   */
  method RootCmdRunE(flag: string, env: string, home: Option<string>,
                     load: string -> Option<ConfigValue>,
                     name: string, listRunning: string -> seq<Container>)
    returns (r: Result<ConfigValue, CutError>)
    ensures r == Run(flag, env, home, load, name, listRunning)
  {
    var path := KubeconfigPath.ResolvePath(flag, env, home);
    if path.Failure? {
      return Failure(PathFailed(path.error));
    }
    var loaded := load(path.value);
    if loaded.None? {
      return Failure(LoadFailed);
    }
    var config := new Config(loaded.value);
    if !ContainsContext(config.Value(), name) {
      return Failure(NoSuchContext);
    }
    config.SelectContext(name);
    var outcome := config.UseDockerContainerIP(name, listRunning);
    if outcome.Fail? {
      return Failure(outcome.error);
    }
    r := Success(config.Value());
  }
}

=== FILE: naming.dfy ===
/**
 * The naming conventions that tie a kind cluster's context to its control-plane
 * container, and the API-server URL written back into the kubeconfig.
 */
module Naming {
  import opened Wrappers
  import opened GoStrings

  /** kind names its contexts `kind-<cluster>`. */
  const KindPrefix: string := "kind-"

  /** kind names the control-plane container of `<cluster>` as `<cluster>-control-plane`. */
  const ControlPlaneSuffix: string := "-control-plane"

  /** The Docker network kind attaches its nodes to. */
  const KindNetwork: string := "kind"

  const ServerScheme: string := "https://"

  /** The API server's default secure port, written as the URL's port suffix. */
  const ServerPort: string := ":6443"

  /** The container-name filter derived from a context name. */
  function ControlPlaneName(contextName: string): (name: string)
    ensures HasSuffix(name, ControlPlaneSuffix)
    ensures HasPrefix(contextName, KindPrefix) ==> KindPrefix + name == contextName + ControlPlaneSuffix
    ensures !HasPrefix(contextName, KindPrefix) ==> name == contextName + ControlPlaneSuffix
  {
    TrimPrefix(contextName, KindPrefix) + ControlPlaneSuffix
  }

  /** The prefix is stripped once: whatever follows `kind-` is kept, even a second `kind-`. */
  lemma ControlPlaneNameStripsOnce(cluster: string)
    ensures ControlPlaneName(KindPrefix + cluster) == cluster + ControlPlaneSuffix
  {
    assert (KindPrefix + cluster)[..|KindPrefix|] == KindPrefix;
    assert (KindPrefix + cluster)[|KindPrefix|..] == cluster;
  }

  /** `kind-kind2` names the container `kind2-control-plane`. */
  lemma ControlPlaneNameOfKindContext()
    ensures ControlPlaneName("kind-kind2") == "kind2-control-plane"
  {
    assert "kind-kind2" == KindPrefix + "kind2";
    ControlPlaneNameStripsOnce("kind2");
  }

  /** Only one `kind-` is stripped from `kind-kind-x`. */
  lemma ControlPlaneNameOfDoublePrefix()
    ensures ControlPlaneName("kind-kind-x") == "kind-x-control-plane"
  {
    assert "kind-kind-x" == KindPrefix + "kind-x";
    ControlPlaneNameStripsOnce("kind-x");
  }

  /** A context without the prefix only gets the suffix. */
  lemma ControlPlaneNameWithoutPrefix()
    ensures ControlPlaneName("other") == "other-control-plane"
  {
    assert !HasPrefix("other", KindPrefix) by {
      assert "other"[0] != KindPrefix[0];
    }
  }

  /**
   * Dropping the prefix loses information: the contexts `kind-<c>` and `<c>` (when `<c>`
   * does not itself start with `kind-`) select the same container.
   */
  lemma ControlPlaneNameCollides(cluster: string)
    requires !HasPrefix(cluster, KindPrefix)
    ensures KindPrefix + cluster != cluster
    ensures ControlPlaneName(KindPrefix + cluster) == ControlPlaneName(cluster)
  {
    ControlPlaneNameStripsOnce(cluster);
    assert |KindPrefix + cluster| != |cluster|;
  }

  /** The API-server URL for a container address: `https://<ip>:6443`. */
  function ServerUrl(ip: string): (url: string)
    ensures HasPrefix(url, ServerScheme) && HasSuffix(url, ServerPort)
    ensures |url| == |ServerScheme| + |ip| + |ServerPort|
  {
    ServerScheme + ip + ServerPort
  }

  /** Inverse of ServerUrl: the host of a URL of that shape, None for any other string. */
  function HostOf(url: string): Option<string>
  {
    if |ServerScheme| + |ServerPort| <= |url| && HasPrefix(url, ServerScheme) && HasSuffix(url, ServerPort)
    then Some(url[|ServerScheme|..|url| - |ServerPort|])
    else None
  }

  /** The address written into the URL is recovered from it unchanged. */
  lemma ServerUrlRoundTrip(ip: string)
    ensures HostOf(ServerUrl(ip)) == Some(ip)
  {
    var url := ServerUrl(ip);
    assert url[|ServerScheme|..|url| - |ServerPort|] == ip;
  }

  /** Every URL HostOf accepts is the ServerUrl of its host, so ServerUrl is onto that shape. */
  lemma HostOfRoundTrip(url: string)
    requires HostOf(url).Some?
    ensures ServerUrl(HostOf(url).value) == url
  {
    var host := url[|ServerScheme|..|url| - |ServerPort|];
    assert url == url[..|ServerScheme|] + host + url[|url| - |ServerPort|..];
  }

  /** Distinct addresses give distinct URLs. */
  lemma ServerUrlInjective(ip1: string, ip2: string)
    requires ServerUrl(ip1) == ServerUrl(ip2)
    ensures ip1 == ip2
  {
    ServerUrlRoundTrip(ip1);
    ServerUrlRoundTrip(ip2);
  }
}

=== FILE: wrappers.dfy ===
/** Result types shared by the model. */
module Wrappers {

  /** A value or nothing; stands for a Go pointer that may be nil. */
  datatype Option<+T> = None | Some(value: T)

  /** A value or an error; stands for Go's `(value, error)` pairs. */
  datatype Result<+R, +E> = Success(value: R) | Failure(error: E)

  /** Success without a value, or an error; stands for a Go function returning `error`. */
  datatype Outcome<+E> = Pass | Fail(error: E)
}
